=== FILE: README.md ===
# Pipebase client buffering engine — a Dafny model

This project models the core of the Pipebase JavaScript client (`PipebaseClient`
in `src/index.ts`). Applications call `track(event, table)` to buffer telemetry
events per destination table. A timer, an explicit `flushAsync()` or the final
`endAsync()` snapshots that buffer, empties it and uploads each table's batch in
turn. A counter of uploads in progress backs `isIngestionCompleted()`, which
`endAsync` polls before it returns. Next to the client sit the configuration
helpers: `updateDefaultConfigParameters`, `validateConfig` and
`NewPipebaseConfig`.

Layout:

- `wrappers.dfy` (`Wrappers`): `Option`, `Result` and `Outcome`.
- `config.dfy` (`Configuration`): the option record, the four default constants
  (endpoint `https://pipebase.io/ingest`, 1000 ms ingest interval, 10000 ms flush
  timeout, 500 ms flush check interval), defaulting, validation and
  `NewPipebaseConfig`.
- `buffering.dfy` (`Buffering`): the client state, its constructor, `track`,
  console capture, `isIngestionCompleted`, and the flush split into steps:
  `Snapshot`, then `BeginUpload` and `EndUpload` for each table. It also has
  `FlushAsync` and `EndAsync` as methods that run one flush to its end.
- `interleaving.dfy` (`Interleaving`): the client together with every flush
  started so far. Any step may interleave with any other: track, capture, timer
  tick, snapshot, begin or end of an upload, or `endAsync`. The module defines
  an invariant `Valid`, proves that every step keeps it, and proves what it
  gives. The counter equals the number of flushes awaiting an upload. Every
  event filed under a table appears, in call order, in the flushes' copies
  (oldest flush first) followed by the live buffer.

Modelling choices:

- JavaScript truthiness is explicit. An `undefined` or empty string is falsy, so
  `apiKey`, `workspaceId` and the `tableName` argument are strings where `""`
  also stands for "absent". The optional fields are `Option` values. A duration
  is kept only when it is present and strictly positive (`PositiveMs`).
- `track` with no table name uses `config.defaultTable`. If that property is
  `undefined`, JavaScript turns the property key into the string
  `"undefined"`, and the model files the event under that key
  (`DefaultTableKey`).
- The upload counter is an `int`, as in the source, and `EndUpload` decrements
  it unconditionally. Non-negativity is proved from the invariant, not assumed
  from the type.
- The transport (`_sendLogsToPipebaseIo`) becomes a status. In the `Sys*` steps
  it is an arbitrary `int` argument. In the methods it is a function parameter
  `send`. The source catches every transport error and turns it into a status
  (or -1), so an upload that settles always ends with the decrement.
- The timer is a flag `timerActive` plus a `SysTick` step that starts a flush
  while the flag is set. Console interception is a flag `capturing` plus a
  `Capture` step. A captured line is a `track` of a `ConsoleLine` event on the
  default table.
- A captured console reaches the engine itself. While console logs are
  ingested, the `console.info` call that reports each upload's result
  (src/index.ts:168) goes through the capturing function. It therefore tracks
  an `Info` line on the default table, in the same synchronous stretch as the
  counter's decrement. `EndUpload` and `SysEnd` model this. So with capture on,
  a flush leaves one result line per uploaded table in the buffer, and the
  next flush uploads those lines.
- A known quirk is kept as it is. A flush copies the whole buffer, but it
  counts a table only while that table's upload is in flight. So tables still
  waiting in a flush's copy show up neither in the live buffer nor in the
  counter. `BetweenUploadsLooksCompleted` states this for the moment after one
  upload's decrement and before the flush's next increment. That moment lies
  across an `await`, so other code can run in it.
- Behaviour of the code worth noting:
  - A track with no table and no default is filed under `""` or
    `"undefined"`. Apart from a diagnostic message, nothing reports it.
  - Uploads within one flush are sequential: each waits for the previous one
    to settle.
  - `isIngestionCompleted` does not see tables waiting in a flush's copy.
  - There is no lifecycle state. After `endAsync`, `track` still buffers, but
    no timer flushes the buffer again.

## Model

| member | source | states |
|---|---|---|
| Configuration.UpdateDefaults | src/index.ts:214-233 | A missing, zero or negative interval, timeout or check interval becomes 1000, 10000 or 500. A missing or empty endpoint becomes the default endpoint. Positive values and every other field are kept. The result is always fully defaulted. |
| Configuration.UpdateDefaultsIdempotent | src/index.ts:214-233 | Applying the defaults twice equals applying them once. |
| Configuration.DefaultedIsFixpoint | src/index.ts:216-230 | A configuration that already has a non-empty endpoint and positive durations is returned unchanged. |
| Configuration.Validate | src/index.ts:194-207 | Passes exactly when a configuration is given, both credentials are non-empty, and console ingestion has a non-empty default table. Each failure names the first check that failed, in the source's order. |
| Configuration.ValidateIgnoresDefaults | src/index.ts:67-76 | Validating before defaulting (constructor) and after it (`NewPipebaseConfig`) give the same verdict. |
| Configuration.NewPipebaseConfig | src/index.ts:26-43 | Succeeds exactly when the credentials are non-empty and console ingestion has a default table. A failure is the missing-credentials error exactly when a credential is empty, and never the missing-configuration error. The returned configuration carries the given fields and the four default values. |
| Buffering.NewClient | src/index.ts:62-93 | Construction succeeds exactly when validation passes, and fails with validation's error otherwise. A new client holds the defaulted configuration, an empty buffer and a zero counter. It captures the console iff ingestion of console logs is enabled, and it is quiescent. |
| Buffering.ResolveTable | src/index.ts:97-102 | A non-empty table name is used as given. An empty or absent one resolves to the default table key. |
| Buffering.Track | src/index.ts:97-108 | The resolved table gains the event at the end of its sequence; a new table gets a one-element sequence. Every other table, the counter and the rest of the client are unchanged. |
| Buffering.TracksGroupByTable | src/index.ts:103-107 | One worked example: tracking to `x`, `y`, `x` on an empty buffer gives `x` both of its events in call order and `y` its one event. |
| Buffering.TrackAllAppends | src/index.ts:97-107 | Any run of `track` calls with the same table argument appends its events, in call order, after what the resolved table already held. Every other table, the counter and the configuration are unchanged. The table becomes a key iff at least one event was tracked. |
| Buffering.UntabledTracksUseDefault | src/index.ts:97-107 | Any sequence of events tracked without a table name is appended, in order, to whatever the default table already held. |
| Buffering.Capture | src/index.ts:151-159 | While capturing, a console call appends a `ConsoleLine` with its severity and arguments to the default table. Every other table, the counter, the configuration and the flags are unchanged. Without capture the client is unchanged. |
| Buffering.Snapshot | src/index.ts:123-125 | The live buffer becomes empty and nothing else in the client changes. The flush's copy is the whole former buffer, and every table is waiting. On an empty buffer the client is unchanged and the flush is already done. |
| Buffering.BeginUpload | src/index.ts:161-165 | Starting a table's upload raises the counter by one and hands the transport that table's entire copied batch. The table leaves the flush's waiting set and becomes the one in flight; nothing else in the client changes. |
| Buffering.EndUpload | src/index.ts:165-168 | When the transport settles with any status, the counter drops by one and the flush awaits nothing; its waiting set and copied batches are unchanged. Without capture nothing else changes. With capture, the default table gains the `Info` line reporting the table and its status. |
| Buffering.BeginEndBalanced | src/index.ts:161-169 | Beginning and then ending one table's upload restores the counter for any transport status, and the table leaves the waiting set. Without capture the whole client returns to its prior state. With capture it returns to that state plus the one result line on the default table. |
| Buffering.FlushAsync | src/index.ts:123-129 | A full flush leaves the counter as it was. It hands each snapshotted table to the transport exactly once, with its events in track order, and makes no other uploads; each status is what the transport returned for that upload. Afterwards the buffer is empty without capture. With capture it holds exactly one result line per upload, in upload order, under the default table. An empty buffer gives no upload and no change. |
| Buffering.Stop | src/index.ts:110-114 | Clearing the timer and restoring the console leave neither running. The buffer and counter are unchanged. |
| Buffering.EndAsync | src/index.ts:110-116 | After the final flush the timer and console capture are off and nothing is buffered. The configuration is kept, so a later `track` still resolves the same default table. The client is quiescent iff no other flush had an upload in flight. |
| Interleaving.InitValid | src/index.ts:55-57 | A newly built client with no flushes satisfies the invariant. |
| Interleaving.TrackPreservesValid | src/index.ts:97-108 | `track` keeps the counter balanced and keeps every event accounted for under its table, in order. |
| Interleaving.CapturePreservesValid | src/index.ts:151-159 | A captured console line keeps the invariant. |
| Interleaving.FlushPreservesValid | src/index.ts:123-125 | A snapshot moves the whole buffer into the new flush and keeps the invariant. |
| Interleaving.TickPreservesValid | src/index.ts:87-92 | A timer tick keeps the invariant. |
| Interleaving.BeginPreservesValid | src/index.ts:161-165 | Beginning an upload keeps the invariant and hands over exactly that table's copied batch. |
| Interleaving.EndPreservesValid | src/index.ts:164-168 | Before an upload's decrement the counter is at least one, and afterwards it is one lower. The invariant holds, including the captured result line in the history, so the counter never goes negative. |
| Interleaving.EndAsyncPreservesValid | src/index.ts:110-116 | `endAsync`'s stop-and-flush keeps the invariant, empties the buffer and switches off the timer and capture. |
| Interleaving.CounterNonNegative | src/index.ts:57 | Under the invariant the upload counter is never negative. |
| Interleaving.QuiescenceMeaning | src/index.ts:131-133 | `isIngestionCompleted` holds iff nothing is buffered and no flush is awaiting an upload. |
| Interleaving.BetweenUploadsLooksCompleted | src/index.ts:126-133 | Say an upload ends while its flush still has tables waiting, no other upload is in flight and nothing is buffered. Without capture the client then reports ingestion completed, although those tables are not yet uploaded. With capture the result line keeps it from reporting completed. |
| Interleaving.EndedIgnoresTimerAndConsole | src/index.ts:110-114 | After `endAsync`, timer ticks and console calls no longer change the system. |
| Interleaving.EmptyFlushChangesNothing | src/index.ts:124-128 | Flushing an empty buffer leaves the client and the history unchanged and starts no upload. |
| Interleaving.EndEffect | src/index.ts:164-168 | Ending an upload leaves other flushes and the client's settings alone. Without capture it leaves the buffer and history alone; with capture only the default table grows, and it is then a key of the buffer. |
| Interleaving.UploadEffect | src/index.ts:161-168 | Uploading one waiting table removes it from the waiting set. The effect on the rest of the system is the same as `EndEffect`'s. |
| Interleaving.ProgressStep | src/index.ts:126-128 | One more upload in a flush's loop removes a table from its waiting set. It hands that table to the transport once, with the batch the flush copied, and records the transport's answer. Everything else stays as the loop so far left it. |
| Interleaving.UploadWaiting | src/index.ts:126-128 | A flush awaiting no upload hands each table it has not reached to the transport exactly once, with the batch it copied. Each recorded status is the transport's answer. It keeps the flush's copy, the invariant and the other flushes, and the flush then has nothing left. |
| Interleaving.RunFlush | src/index.ts:126-128 | Running one flush to its end settles its pending upload. It then hands every table it had not reached to the transport exactly once, with the batch it copied, and records the transport's answers. It keeps the flush's copy, the invariant and other flushes. A flush with nothing left changes nothing. Without capture the buffer and history are untouched. With capture only the default table grows, and it is non-empty if the flush had work left. |
| Interleaving.Settle | src/index.ts:116-120 | When every flush runs to its end, each table still waiting in some flush is handed to the transport exactly once, with that flush's copied batch, and the counter returns to zero. Without capture the client is then quiescent iff the live buffer is empty, which is the condition `endAsync` polls for. With capture it is quiescent iff the buffer was empty and no flush had work left, because each settled upload logs a captured line. |

## Left out

- The HTTP request in `_sendLogsToPipebaseIo` (src/index.ts:171-190) is a network call. The model replaces it with an arbitrary integer status or a `send` function parameter.
- Timer scheduling (`setInterval`/`clearInterval`, src/index.ts:87-92, 111) is reduced to a flag and a tick step. The interval value itself is not modelled. This includes the detail that the timer is given the raw `config.ingestInterval`, not the defaulted one.
- The wall-clock bounded wait in `endAsync` (`waitUntil` with `flushTimeout` and `flushCheckInterval`, src/index.ts:117-120) involves time and polling. The model instead states the condition being waited for (`QuiescenceMeaning`) and proves that it is reached once every flush settles (`Settle`).
- Saving, patching and restoring the global console functions (src/index.ts:79-85, 137-159) mutate global state. They are reduced to the `capturing` flag. Whether a captured line is forwarded to the original console (`suppressConsoleLogsToConsole`) is output only, so it is not modelled.
- Diagnostic logging other than the upload-result line is not modelled, because it cannot reach the buffer. The `console.debug` calls (src/index.ts:162, 184, 187) are not among the captured functions. `logConfig` (src/index.ts:209-212) and the `console.error` at src/index.ts:68 run before capture is installed. The `console.error` at src/index.ts:99 fires only without a default table, and validation excludes that case whenever capture is on.
- Buffering.Track: table names inherited from `Object.prototype` are not modelled. For `"constructor"`, `"toString"`, `"valueOf"`, `"hasOwnProperty"`, `"__proto__"` and the like, the `in` test at src/index.ts:103 is true for an empty buffer, so `.push` at src/index.ts:106 is undefined and `track` throws a TypeError without buffering anything. The model treats every name as an ordinary key and appends. Modelling the throw would also mean modelling how it aborts a captured console call or a flush.
- Buffering.EndUpload: a status is printed in plain decimal. The exponent form JavaScript uses for magnitudes of 10^21 and above is not modelled, because transport statuses are HTTP codes or -1.
- Numeric options are modelled as integers. `NaN` and fractional values are not modelled.
- JavaScript's key enumeration order across tables is not modelled. A flush picks any waiting table next, and no property depends on the order.
- An upload that never settles is not modelled by the methods. The request sets no timeout. A request that hangs therefore never reaches the decrement, and `endAsync`'s `await` of its final flush then blocks before the bounded wait starts. `FlushAsync`, `EndAsync`, `RunFlush` and `Settle` take `send` as a total function, so they assume every upload settles. In the `Sys*` steps an upload may begin and never end, and the invariant lemmas cover that case.
- Event payloads are simplified. `track`'s `eventData` is modelled as a `string`, and a captured call's first argument and remaining arguments as `string` and `seq<string>`. The source accepts any values (objects, numbers). No property depends on payload contents.
- Events are stored by value. The source buffers the caller's object by reference (src/index.ts:104-106), and the flush's copy at src/index.ts:124 is shallow. So an object the caller mutates after `track` is uploaded in its mutated form. The model's events are immutable values and cannot express that.
- Interleavings finer than one step are not modelled. In JavaScript, `flushAsync` begins its first upload in the same synchronous stretch as its snapshot. The model lets other steps run between the two. Its schedules therefore include the source's. The invariant-preservation lemmas and `QuiescenceMeaning` hold on every schedule the model allows, so they also hold on the source's. A state the model can reach right after a snapshot, before the first upload begins, is not one the source exposes.
- The test files call the live service and only check that nothing throws. They are not modelled.

=== FILE: buffering.dfy ===
/** The client's buffering engine: the per-table event buffer filled by `track`,
    the snapshot-and-clear that starts a flush, the upload-job counter bracketed
    around each per-table upload, and the quiescence test. The asynchronous flush
    is split into explicit steps (snapshot, then begin and end of each table's
    upload) so that the state between steps can be spoken about. */
module Buffering {
  import opened Wrappers
  import opened Configuration

  datatype Severity = Info | Warning | Error

  /** An event payload. The client never looks inside one; a captured console
      line carries its severity, its first argument and the remaining ones. */
  datatype Event =
    | Custom(data: string)
    | ConsoleLine(severity: Severity, trace: string, traceArguments: seq<string>)

  /** Table name to the events filed under it, oldest first. */
  type Buffer = map<string, seq<Event>>

  /** The client. `capturing` stands for the console functions being replaced by
      capturing ones; `timerActive` for the repeating flush timer being set. */
  datatype PipebaseClient = PipebaseClient(
    config: PipebaseConfig,
    eventsBuffer: Buffer,
    uploadJobsInProgress: int,
    capturing: bool,
    timerActive: bool)

  /** What one per-table upload hands to the transport. */
  datatype Upload = Upload(table: string, events: seq<Event>)

  /** One running `flushAsync`: its private copy of the buffer, the tables its
      loop has reached so far, and the table whose upload it awaits, if any. */
  datatype FlushTask = FlushTask(batches: Buffer, visited: set<string>, inFlight: Option<string>)

  /** The events filed under `t`, none when `t` is not a key. */
  function Pending(b: Buffer, t: string): seq<Event> {
    if t in b then b[t] else []
  }

  /** The key an event lands under when no table name is given: the configured
      default table, or, when that property is undefined, the key "undefined"
      that JavaScript makes of it. */
  function DefaultTableKey(config: PipebaseConfig): string {
    match config.defaultTable
    case Some(d) => d
    case None => "undefined"
  }

  /** The table `track` files an event under. */
  function ResolveTable(config: PipebaseConfig, tableName: string): (t: string)
    ensures tableName != "" ==> t == tableName
    ensures tableName == "" ==> t == DefaultTableKey(config)
  {
    if tableName == "" then DefaultTableKey(config) else tableName
  }

  /** The client's constructor: the configuration checks, then the defaults; a
      new client has an empty buffer, no upload in flight, a running timer, and
      captures console output when console ingestion is enabled. */
  function NewClient(config: Option<PipebaseConfig>): (r: Result<PipebaseClient, ConfigError>)
    ensures r.Success? <==> Validate(config).Pass?
    ensures r.Failure? ==> Validate(config) == Fail(r.error)
    ensures r.Success? ==>
              && r.value.config == UpdateDefaults(config.value)
              && r.value.eventsBuffer == map[]
              && r.value.uploadJobsInProgress == 0
              && r.value.capturing == Enabled(config.value.ingestConsoleLogs)
              && r.value.timerActive
              && IsIngestionCompleted(r.value)
  {
    match Validate(config)
    case Fail(e) => Failure(e)
    case Pass =>
      Success(PipebaseClient(UpdateDefaults(config.value), map[], 0,
                             Enabled(config.value.ingestConsoleLogs), true))
  }

  /** `track`: appends the event at the end of its table's sequence, creating
      the table when it is new. */
  function Track(c: PipebaseClient, event: Event, tableName: string := ""): (r: PipebaseClient)
    ensures var t := ResolveTable(c.config, tableName);
            && r.eventsBuffer.Keys == c.eventsBuffer.Keys + {t}
            && r.eventsBuffer[t] == Pending(c.eventsBuffer, t) + [event]
            && (forall u :: u in c.eventsBuffer && u != t ==> r.eventsBuffer[u] == c.eventsBuffer[u])
    ensures r.uploadJobsInProgress == c.uploadJobsInProgress
    ensures r.config == c.config && r.capturing == c.capturing && r.timerActive == c.timerActive
  {
    var t := ResolveTable(c.config, tableName);
    if t !in c.eventsBuffer then c.(eventsBuffer := c.eventsBuffer[t := [event]])
    else c.(eventsBuffer := c.eventsBuffer[t := c.eventsBuffer[t] + [event]])
  }

  /** Events for different tables are kept apart, each table in call order:
      `x`, `y`, `x` give `x` two events and `y` one. */
  lemma TracksGroupByTable(c: PipebaseClient, a: Event, b: Event, d: Event)
    requires c.eventsBuffer == map[]
    ensures Track(Track(Track(c, a, "x"), b, "y"), d, "x").eventsBuffer == map["x" := [a, d], "y" := [b]]
  {
    var c1 := Track(c, a, "x");
    assert c1.eventsBuffer == map["x" := [a]];
    var c2 := Track(c1, b, "y");
    assert c2.eventsBuffer == map["x" := [a], "y" := [b]];
    assert [a] + [d] == [a, d];
  }

  /** Tracks every event of `es` in order under the same table argument. */
  function TrackAll(c: PipebaseClient, es: seq<Event>, tableName: string := ""): PipebaseClient {
    if |es| == 0 then c else Track(TrackAll(c, es[..|es| - 1], tableName), es[|es| - 1], tableName)
  }

  /** Any run of `track` calls with the same table argument appends its events,
      in call order, to the end of the resolved table and leaves every other
      table and the counter alone. With an empty argument that table is the
      default table. */
  lemma {:induction false} TrackAllAppends(c: PipebaseClient, es: seq<Event>, tableName: string)
    ensures var r := TrackAll(c, es, tableName);
            var t := ResolveTable(c.config, tableName);
            && Pending(r.eventsBuffer, t) == Pending(c.eventsBuffer, t) + es
            && (forall u :: u != t ==> Pending(r.eventsBuffer, u) == Pending(c.eventsBuffer, u))
            && r.eventsBuffer.Keys == (if |es| == 0 then c.eventsBuffer.Keys else c.eventsBuffer.Keys + {t})
            && r.uploadJobsInProgress == c.uploadJobsInProgress
            && r.config == c.config
  {
    if |es| > 0 {
      var init := es[..|es| - 1];
      TrackAllAppends(c, init, tableName);
      assert init + [es[|es| - 1]] == es;
    }
  }

  /** Events tracked without a table name all land, in order, under the default
      table, after whatever it already held. */
  lemma UntabledTracksUseDefault(c: PipebaseClient, es: seq<Event>)
    ensures Pending(TrackAll(c, es).eventsBuffer, DefaultTableKey(c.config))
            == Pending(c.eventsBuffer, DefaultTableKey(c.config)) + es
  {
    TrackAllAppends(c, es, "");
  }

  /** The buffer with `line` appended to the default table, every other table
      as it was. */
  function Logged(b: Buffer, config: PipebaseConfig, line: Event): Buffer {
    b[DefaultTableKey(config) := Pending(b, DefaultTableKey(config)) + [line]]
  }

  /** A console call while output is captured: the line becomes an event on the
      default table. Without capture the console call does not reach the client. */
  function Capture(c: PipebaseClient, severity: Severity, trace: string, args: seq<string>): (r: PipebaseClient)
    ensures !c.capturing ==> r == c
    ensures c.capturing ==>
              r == c.(eventsBuffer := Logged(c.eventsBuffer, c.config, ConsoleLine(severity, trace, args)))
  {
    if !c.capturing then c
    else
      var tableArg := match c.config.defaultTable case Some(d) => d case None => "";
      Track(c, ConsoleLine(severity, trace, args), tableArg)
  }

  /** `isIngestionCompleted`. */
  predicate IsIngestionCompleted(c: PipebaseClient) {
    |c.eventsBuffer| == 0 && c.uploadJobsInProgress == 0
  }

  /** The tables a flush has still to upload. */
  function Waiting(f: FlushTask): set<string> {
    f.batches.Keys - f.visited
  }

  /** A flush whose loop has finished. */
  predicate FlushDone(f: FlushTask) {
    Waiting(f) == {} && f.inFlight.None?
  }

  /** The loop only reaches keys of its copy, and the table it awaits is one it
      has reached. */
  predicate WellFormed(f: FlushTask) {
    && f.visited <= f.batches.Keys
    && (f.inFlight.Some? ==> f.inFlight.value in f.visited)
  }

  /** The loop may start an upload for `t` next. */
  predicate CanBegin(f: FlushTask, t: string) {
    f.inFlight.None? && t in Waiting(f)
  }

  /** The start of `flushAsync`: copies the buffer into the flush and replaces the
      live buffer with an empty one. */
  function Snapshot(c: PipebaseClient): (r: (PipebaseClient, FlushTask))
    ensures r.0.eventsBuffer == map[]
    ensures r.0 == c.(eventsBuffer := map[])
    ensures r.1.batches == c.eventsBuffer && Waiting(r.1) == c.eventsBuffer.Keys
    ensures WellFormed(r.1) && r.1.inFlight.None?
    ensures |c.eventsBuffer| == 0 ==> r.0 == c && FlushDone(r.1)
  {
    (c.(eventsBuffer := map[]), FlushTask(c.eventsBuffer, {}, None))
  }

  /** The head of `_flushTableAsync` for table `t`: the counter goes up and the
      table's whole batch is handed to the transport. */
  function BeginUpload(c: PipebaseClient, f: FlushTask, t: string): (r: (PipebaseClient, FlushTask, Upload))
    requires CanBegin(f, t)
    ensures r.0 == c.(uploadJobsInProgress := c.uploadJobsInProgress + 1)
    ensures r.2 == Upload(t, f.batches[t])
    ensures r.1.batches == f.batches && r.1.inFlight == Some(t)
    ensures Waiting(r.1) == Waiting(f) - {t} && t !in Waiting(r.1)
    ensures WellFormed(f) ==> WellFormed(r.1)
  {
    (c.(uploadJobsInProgress := c.uploadJobsInProgress + 1),
     f.(visited := f.visited + {t}, inFlight := Some(t)),
     Upload(t, f.batches[t]))
  }

  /** The decimal digits of `n`. */
  function Digits(n: nat): string {
    if n < 10 then ["0123456789"[n]] else Digits(n / 10) + ["0123456789"[n % 10]]
  }

  /** An integer status as a template literal prints it. */
  function StatusText(status: int): string {
    if status < 0 then "-" + Digits(-status) else Digits(status)
  }

  /** The `console.info` line logged when an upload of `table` settles. */
  function UploadEndedLine(table: string, status: int): Event {
    ConsoleLine(Info, "Flushing to table '" + table + "' ended with result: " + StatusText(status), [])
  }

  /** The tail of `_flushTableAsync`: the transport settled with some status
      (its failures are caught and turned into a status too), the counter goes
      down whatever that status is, and the result is logged with `console.info`.
      While the console is captured that log line is itself tracked on the
      default table. */
  function EndUpload(c: PipebaseClient, f: FlushTask, status: int): (r: (PipebaseClient, FlushTask))
    requires f.inFlight.Some?
    ensures !c.capturing ==> r.0 == c.(uploadJobsInProgress := c.uploadJobsInProgress - 1)
    ensures c.capturing ==>
              r.0 == c.(uploadJobsInProgress := c.uploadJobsInProgress - 1,
                        eventsBuffer := Logged(c.eventsBuffer, c.config, UploadEndedLine(f.inFlight.value, status)))
    ensures r.1.batches == f.batches && r.1.visited == f.visited && r.1.inFlight.None?
    ensures Waiting(r.1) == Waiting(f)
    ensures WellFormed(f) ==> WellFormed(r.1)
  {
    var d := c.(uploadJobsInProgress := c.uploadJobsInProgress - 1);
    (Capture(d, Info, UploadEndedLine(f.inFlight.value, status).trace, []), f.(inFlight := None))
  }

  /** A begin followed by its end leaves the counter where it was, whatever the
      transport returned; without capture it leaves the whole client as it was,
      with capture the default table gains the one line that logs the result. */
  lemma BeginEndBalanced(c: PipebaseClient, f: FlushTask, t: string, status: int)
    requires CanBegin(f, t)
    ensures var b := BeginUpload(c, f, t);
            var e := EndUpload(b.0, b.1, status);
            && e.0.uploadJobsInProgress == c.uploadJobsInProgress
            && (!c.capturing ==> e.0 == c)
            && (c.capturing ==> e.0 == c.(eventsBuffer := Logged(c.eventsBuffer, c.config, UploadEndedLine(t, status))))
            && Waiting(e.1) == Waiting(f) - {t}
            && e.1.inFlight.None?
  {
  }

  /** Upload tables are pairwise different. */
  predicate DistinctTables(us: seq<Upload>) {
    forall i, j :: 0 <= i < j < |us| ==> us[i].table != us[j].table
  }

  /** The tables of a sequence of uploads. */
  function Tables(us: seq<Upload>): set<string> {
    if |us| == 0 then {} else Tables(us[..|us| - 1]) + {us[|us| - 1].table}
  }

  /** A table is among `Tables(us)` exactly when some upload carries it. */
  lemma {:induction false} TablesMembership(us: seq<Upload>, t: string)
    ensures t in Tables(us) <==> exists i :: 0 <= i < |us| && us[i].table == t
  {
    if |us| > 0 {
      var init := us[..|us| - 1];
      TablesMembership(init, t);
      if t in Tables(init) {
        var i :| 0 <= i < |init| && init[i].table == t;
        assert us[i].table == t;
      }
      if exists i :: 0 <= i < |us| && us[i].table == t {
        var i :| 0 <= i < |us| && us[i].table == t;
        if i < |init| {
          assert init[i].table == t;
        }
      }
    }
  }

  /** Each batch of `us` is the one `b` holds for its table. */
  predicate FromBuffer(us: seq<Upload>, b: Buffer) {
    forall i :: 0 <= i < |us| ==> us[i].table in b && us[i].events == b[us[i].table]
  }

  /** The lines logged for the settled uploads `us` with results `sts`. */
  function EndedLines(us: seq<Upload>, sts: seq<int>): seq<Event>
    requires |sts| == |us|
  {
    seq(|us|, i requires 0 <= i < |us| => UploadEndedLine(us[i].table, sts[i]))
  }

  /** The buffer a captured flush leaves behind: its result lines, filed under
      the default table, and nothing else. */
  function EndedLog(config: PipebaseConfig, us: seq<Upload>, sts: seq<int>): Buffer
    requires |sts| == |us|
  {
    if |us| == 0 then map[] else map[DefaultTableKey(config) := EndedLines(us, sts)]
  }

  /** One more settled upload under capture appends its line to the log. */
  lemma EndedLogGrows(config: PipebaseConfig, us: seq<Upload>, sts: seq<int>, u: Upload, st: int)
    requires |sts| == |us|
    ensures Logged(EndedLog(config, us, sts), config, UploadEndedLine(u.table, st))
            == EndedLog(config, us + [u], sts + [st])
  {
    assert EndedLines(us + [u], sts + [st]) == EndedLines(us, sts) + [UploadEndedLine(u.table, st)];
  }

  /** The buffer a flush has left behind after settling `us` with results `sts`:
      nothing without capture, the result lines with it. */
  function AfterFlush(c: PipebaseClient, us: seq<Upload>, sts: seq<int>): Buffer
    requires |sts| == |us|
  {
    if c.capturing then EndedLog(c.config, us, sts) else map[]
  }

  /** Uploading one more waiting table keeps the flush's bookkeeping: the
      uploaded tables are the visited ones, each once, each with its batch. */
  lemma UploadsGrow(us: seq<Upload>, visited: set<string>, b: Buffer, t: string)
    requires Tables(us) == visited && |us| == |visited| && DistinctTables(us) && FromBuffer(us, b)
    requires t in b && t !in visited
    ensures var us' := us + [Upload(t, b[t])];
            && Tables(us') == visited + {t} && |us'| == |visited + {t}|
            && DistinctTables(us') && FromBuffer(us', b)
  {
    forall i | 0 <= i < |us|
      ensures us[i].table != t
    {
      TablesMembership(us, us[i].table);
    }
    assert (us + [Upload(t, b[t])])[..|us|] == us;
  }

  /** `flushAsync` run to the end with no other step interleaved: the buffer is
      snapshotted and emptied, then each table of the snapshot is uploaded in
      turn, in whatever order the keys are enumerated, through `send`. While the
      console is captured, each settled upload leaves its result line behind on
      the default table. */
  method FlushAsync(c: PipebaseClient, send: (string, seq<Event>) -> int)
    returns (r: PipebaseClient, uploads: seq<Upload>, statuses: seq<int>)
    ensures r.uploadJobsInProgress == c.uploadJobsInProgress
    ensures r.config == c.config && r.capturing == c.capturing && r.timerActive == c.timerActive
    ensures |uploads| == |c.eventsBuffer|
    ensures DistinctTables(uploads)
    ensures FromBuffer(uploads, c.eventsBuffer)
    ensures Tables(uploads) == c.eventsBuffer.Keys
    ensures |statuses| == |uploads|
    ensures forall i :: 0 <= i < |uploads| ==> statuses[i] == send(uploads[i].table, uploads[i].events)
    ensures !c.capturing ==> r.eventsBuffer == map[]
    ensures c.capturing ==> r.eventsBuffer == EndedLog(c.config, uploads, statuses)
    ensures |c.eventsBuffer| == 0 ==> r == c && uploads == []
  {
    var s := Snapshot(c);
    var f := s.1;
    r := s.0;
    uploads, statuses := [], [];
    while Waiting(f) != {}
      invariant |statuses| == |uploads|
      invariant r == c.(eventsBuffer := AfterFlush(c, uploads, statuses))
      invariant forall i :: 0 <= i < |uploads| ==> statuses[i] == send(uploads[i].table, uploads[i].events)
      invariant f.batches == c.eventsBuffer && f.inFlight.None? && f.visited <= c.eventsBuffer.Keys
      invariant Tables(uploads) == f.visited && |uploads| == |f.visited|
      invariant DistinctTables(uploads) && FromBuffer(uploads, c.eventsBuffer)
      decreases |Waiting(f)|
    {
      var t :| t in Waiting(f);
      var b := BeginUpload(r, f, t);
      var status := send(t, b.2.events);
      var e := EndUpload(b.0, b.1, status);
      BeginEndBalanced(r, f, t, status);
      EndedLogGrows(c.config, uploads, statuses, b.2, status);
      UploadsGrow(uploads, f.visited, c.eventsBuffer, t);
      r, f := e.0, e.1;
      uploads, statuses := uploads + [b.2], statuses + [status];
    }
    assert f.visited == c.eventsBuffer.Keys;
  }

  /** The part of `endAsync` before its final flush: the timer is cleared and the
      original console functions are restored. */
  function Stop(c: PipebaseClient): (r: PipebaseClient)
    ensures !r.timerActive && !r.capturing
    ensures r.eventsBuffer == c.eventsBuffer && r.uploadJobsInProgress == c.uploadJobsInProgress
  {
    c.(timerActive := false, capturing := false)
  }

  /** `endAsync` up to the end of its final flush: after it nothing is buffered,
      no timer or console capture remains, and the client is quiescent exactly
      when no other flush had an upload in flight. */
  method EndAsync(c: PipebaseClient, send: (string, seq<Event>) -> int)
    returns (r: PipebaseClient, uploads: seq<Upload>)
    ensures r.config == c.config
    ensures !r.timerActive && !r.capturing
    ensures r.eventsBuffer == map[] && r.uploadJobsInProgress == c.uploadJobsInProgress
    ensures IsIngestionCompleted(r) <==> c.uploadJobsInProgress == 0
    ensures |uploads| == |c.eventsBuffer| && DistinctTables(uploads)
    ensures FromBuffer(uploads, c.eventsBuffer) && Tables(uploads) == c.eventsBuffer.Keys
  {
    var statuses;
    r, uploads, statuses := FlushAsync(Stop(c), send);
  }
}

=== FILE: config.dfy ===
/** The client configuration: the options it recognises, the defaults filled in
    for the ones left unset, and the checks a configuration must pass before a
    client is built. */
module Configuration {
  import opened Wrappers

  const DefaultIngestionEndpoint: string := "https://pipebase.io/ingest"
  const DefaultIngestIntervalMs: int := 1000
  const DefaultFlushTimeoutMs: int := 10 * 1000
  const DefaultFlushWaitIntervalMs: int := 500

  /** The recognised options. `workspaceId` and `apiKey` are plain strings; an
      `undefined` credential is as falsy as an empty one, so "" stands for both. */
  datatype PipebaseConfig = PipebaseConfig(
    workspaceId: string,
    apiKey: string,
    defaultTable: Option<string>,
    ingestConsoleLogs: Option<bool>,
    suppressConsoleLogsToConsole: Option<bool>,
    ingestionEndpoint: Option<string>,
    ingestInterval: Option<int>,
    flushTimeout: Option<int>,
    flushCheckInterval: Option<int>)

  /** The three errors thrown at construction time. */
  datatype ConfigError = ConfigMissing | MissingCredentials | MissingDefaultTable

  /** Truthiness of an optional string: present and non-empty. */
  predicate Present(s: Option<string>) {
    s.Some? && s.value != ""
  }

  /** Truthiness of an optional flag. */
  predicate Enabled(b: Option<bool>) {
    b == Some(true)
  }

  /** A duration is kept only when present and strictly positive; the source's
      `!x || x <= 0` is the negation of this. */
  predicate PositiveMs(n: Option<int>) {
    n.Some? && n.value > 0
  }

  /** Every duration positive and the endpoint non-empty. */
  predicate Defaulted(c: PipebaseConfig) {
    && Present(c.ingestionEndpoint)
    && PositiveMs(c.ingestInterval)
    && PositiveMs(c.flushTimeout)
    && PositiveMs(c.flushCheckInterval)
  }

  /** The fields that defaulting never touches agree. */
  predicate SameSettings(a: PipebaseConfig, b: PipebaseConfig) {
    && a.workspaceId == b.workspaceId
    && a.apiKey == b.apiKey
    && a.defaultTable == b.defaultTable
    && a.ingestConsoleLogs == b.ingestConsoleLogs
    && a.suppressConsoleLogsToConsole == b.suppressConsoleLogsToConsole
  }

  function DefaultMs(n: Option<int>, fallback: int): Option<int> {
    if PositiveMs(n) then n else Some(fallback)
  }

  /** `updateDefaultConfigParameters`: fills in the endpoint and the three
      durations when they are unset, and keeps everything else. */
  function UpdateDefaults(c: PipebaseConfig): (r: PipebaseConfig)
    ensures Defaulted(r)
    ensures SameSettings(c, r)
    ensures Present(c.ingestionEndpoint) ==> r.ingestionEndpoint == c.ingestionEndpoint
    ensures !Present(c.ingestionEndpoint) ==> r.ingestionEndpoint == Some(DefaultIngestionEndpoint)
    ensures PositiveMs(c.ingestInterval) ==> r.ingestInterval == c.ingestInterval
    ensures !PositiveMs(c.ingestInterval) ==> r.ingestInterval == Some(DefaultIngestIntervalMs)
    ensures PositiveMs(c.flushTimeout) ==> r.flushTimeout == c.flushTimeout
    ensures !PositiveMs(c.flushTimeout) ==> r.flushTimeout == Some(DefaultFlushTimeoutMs)
    ensures PositiveMs(c.flushCheckInterval) ==> r.flushCheckInterval == c.flushCheckInterval
    ensures !PositiveMs(c.flushCheckInterval) ==> r.flushCheckInterval == Some(DefaultFlushWaitIntervalMs)
  {
    c.(
      ingestionEndpoint := if Present(c.ingestionEndpoint) then c.ingestionEndpoint else Some(DefaultIngestionEndpoint),
      ingestInterval := DefaultMs(c.ingestInterval, DefaultIngestIntervalMs),
      flushTimeout := DefaultMs(c.flushTimeout, DefaultFlushTimeoutMs),
      flushCheckInterval := DefaultMs(c.flushCheckInterval, DefaultFlushWaitIntervalMs))
  }

  /** A configuration that already has every default is left as it is. */
  lemma DefaultedIsFixpoint(c: PipebaseConfig)
    requires Defaulted(c)
    ensures UpdateDefaults(c) == c
  {
  }

  /** Applying the defaults twice gives what applying them once gives. */
  lemma UpdateDefaultsIdempotent(c: PipebaseConfig)
    ensures UpdateDefaults(UpdateDefaults(c)) == UpdateDefaults(c)
  {
  }

  /** The condition a configuration must meet: both credentials, and a default
      table whenever console logs are ingested. */
  predicate Acceptable(c: PipebaseConfig) {
    && c.apiKey != ""
    && c.workspaceId != ""
    && (Enabled(c.ingestConsoleLogs) ==> Present(c.defaultTable))
  }

  /** `validateConfig`, and the same three checks at the head of the client's
      constructor: a missing configuration, then missing credentials, then a
      missing default table for console ingestion. */
  function Validate(config: Option<PipebaseConfig>): (r: Outcome<ConfigError>)
    ensures r.Pass? <==> config.Some? && Acceptable(config.value)
    ensures r == Fail(ConfigMissing) <==> config.None?
    ensures r == Fail(MissingCredentials) <==>
              config.Some? && (config.value.apiKey == "" || config.value.workspaceId == "")
    ensures r == Fail(MissingDefaultTable) <==>
              && config.Some? && config.value.apiKey != "" && config.value.workspaceId != ""
              && Enabled(config.value.ingestConsoleLogs) && !Present(config.value.defaultTable)
  {
    match config
    case None => Fail(ConfigMissing)
    case Some(c) =>
      if c.apiKey == "" || c.workspaceId == "" then Fail(MissingCredentials)
      else if Enabled(c.ingestConsoleLogs) && !Present(c.defaultTable) then Fail(MissingDefaultTable)
      else Pass
  }

  /** Defaulting touches no field the checks read, so checking before defaulting
      (the constructor) and after it (`NewPipebaseConfig`) agree. */
  lemma ValidateIgnoresDefaults(c: PipebaseConfig)
    ensures Validate(Some(UpdateDefaults(c))) == Validate(Some(c))
  {
  }

  /** `NewPipebaseConfig`: builds a configuration from the credentials and the
      console options, applies the defaults and returns it only if it passes
      the checks. */
  function NewPipebaseConfig(
    workspaceId: string,
    apiKey: string,
    defaultTable: string := "",
    ingestConsoleLogs: bool := false,
    suppressConsoleLogsToConsole: bool := false
  ): (r: Result<PipebaseConfig, ConfigError>)
    ensures r.Success? <==> workspaceId != "" && apiKey != "" && (ingestConsoleLogs ==> defaultTable != "")
    ensures r.Failure? ==> r.error != ConfigMissing
    ensures r.Failure? ==> (r.error == MissingCredentials <==> workspaceId == "" || apiKey == "")
    ensures r.Success? ==>
              && r.value.workspaceId == workspaceId
              && r.value.apiKey == apiKey
              && r.value.defaultTable == Some(defaultTable)
              && r.value.ingestConsoleLogs == Some(ingestConsoleLogs)
              && r.value.suppressConsoleLogsToConsole == Some(suppressConsoleLogsToConsole)
              && r.value.ingestionEndpoint == Some(DefaultIngestionEndpoint)
              && r.value.ingestInterval == Some(DefaultIngestIntervalMs)
              && r.value.flushTimeout == Some(DefaultFlushTimeoutMs)
              && r.value.flushCheckInterval == Some(DefaultFlushWaitIntervalMs)
  {
    var config := UpdateDefaults(PipebaseConfig(
      workspaceId, apiKey, Some(defaultTable), Some(ingestConsoleLogs), Some(suppressConsoleLogsToConsole),
      None, None, None, None));
    match Validate(Some(config))
    case Pass => Success(config)
    case Fail(e) => Failure(e)
  }
}

=== FILE: interleaving.dfy ===
/** The client as its callers and its own asynchronous code see it: `track`
    calls, console captures and timer ticks interleave with any number of
    flushes, each of which may be awaiting one upload. A step of the system is
    at most one synchronous stretch of the source between two suspension
    points; a snapshot and the first upload it begins, which the source runs in
    one stretch, are two steps here, so other steps may come between them. */
module Interleaving {
  import opened Wrappers
  import opened Configuration
  import opened Buffering

  /** One `track` as it was filed: the table it resolved to and its event. */
  datatype Filed = Filed(table: string, event: Event)

  /** The client, every flush started so far (oldest first), and the history of
      filed events. */
  datatype System = System(client: PipebaseClient, flushes: seq<FlushTask>, filed: seq<Filed>)

  /** How many flushes are awaiting an upload. */
  function InFlightCount(fs: seq<FlushTask>): nat {
    if |fs| == 0 then 0
    else InFlightCount(fs[..|fs| - 1]) + (if fs[|fs| - 1].inFlight.Some? then 1 else 0)
  }

  /** The events filed under table `t`, in call order. */
  function FiledUnder(log: seq<Filed>, t: string): seq<Event> {
    if |log| == 0 then []
    else FiledUnder(log[..|log| - 1], t) + (if log[|log| - 1].table == t then [log[|log| - 1].event] else [])
  }

  /** The events of table `t` that the flushes took over, flush after flush. */
  function HandedOff(fs: seq<FlushTask>, t: string): seq<Event> {
    if |fs| == 0 then [] else HandedOff(fs[..|fs| - 1], t) + Pending(fs[|fs| - 1].batches, t)
  }

  /** No event is lost, duplicated or reordered within its table: what was filed
      under `t` is what the flushes took, in flush order, followed by what is
      still buffered. */
  ghost predicate Conserved(s: System) {
    forall t :: FiledUnder(s.filed, t) == HandedOff(s.flushes, t) + Pending(s.client.eventsBuffer, t)
  }

  ghost predicate AllWellFormed(fs: seq<FlushTask>) {
    forall i :: 0 <= i < |fs| ==> WellFormed(fs[i])
  }

  /** The system invariant: the counter counts exactly the flushes awaiting an
      upload, and no event is lost. */
  ghost predicate Valid(s: System) {
    && AllWellFormed(s.flushes)
    && s.client.uploadJobsInProgress == InFlightCount(s.flushes)
    && Conserved(s)
  }

  // ---- steps ----

  function SysTrack(s: System, event: Event, tableName: string): System {
    System(Track(s.client, event, tableName), s.flushes,
           s.filed + [Filed(ResolveTable(s.client.config, tableName), event)])
  }

  function SysCapture(s: System, severity: Severity, trace: string, args: seq<string>): System {
    if !s.client.capturing then s
    else System(Capture(s.client, severity, trace, args), s.flushes,
                s.filed + [Filed(DefaultTableKey(s.client.config), ConsoleLine(severity, trace, args))])
  }

  function SysFlush(s: System): System {
    var p := Snapshot(s.client);
    System(p.0, s.flushes + [p.1], s.filed)
  }

  /** A timer tick starts a flush while the timer is set. */
  function SysTick(s: System): System {
    if s.client.timerActive then SysFlush(s) else s
  }

  function SysBegin(s: System, i: nat, t: string): (System, Upload)
    requires i < |s.flushes| && CanBegin(s.flushes[i], t)
  {
    var b := BeginUpload(s.client, s.flushes[i], t);
    (System(b.0, s.flushes[i := b.1], s.filed), b.2)
  }

  /** The end of an upload; while the console is captured, the line logging
      its result is filed under the default table like any captured line. */
  function SysEnd(s: System, i: nat, status: int): System
    requires i < |s.flushes| && s.flushes[i].inFlight.Some?
  {
    var e := EndUpload(s.client, s.flushes[i], status);
    var line := Filed(DefaultTableKey(s.client.config), UploadEndedLine(s.flushes[i].inFlight.value, status));
    System(e.0, s.flushes[i := e.1], if s.client.capturing then s.filed + [line] else s.filed)
  }

  /** `endAsync` up to the start of its final flush's first upload. */
  function SysEndAsync(s: System): System {
    SysFlush(s.(client := Stop(s.client)))
  }

  // ---- helper facts about the counting functions ----

  lemma {:induction false} InFlightCountUpdate(fs: seq<FlushTask>, i: nat, f: FlushTask)
    requires i < |fs|
    ensures InFlightCount(fs[i := f]) + (if fs[i].inFlight.Some? then 1 else 0)
            == InFlightCount(fs) + (if f.inFlight.Some? then 1 else 0)
  {
    var n := |fs| - 1;
    if i < n {
      InFlightCountUpdate(fs[..n], i, f);
      assert fs[i := f][..n] == fs[..n][i := f];
    } else {
      assert fs[i := f][..n] == fs[..n];
    }
  }

  lemma {:induction false} NoneInFlight(fs: seq<FlushTask>)
    ensures InFlightCount(fs) == 0 <==> forall i :: 0 <= i < |fs| ==> fs[i].inFlight.None?
  {
    if |fs| > 0 {
      var n := |fs| - 1;
      NoneInFlight(fs[..n]);
      if InFlightCount(fs) == 0 {
        forall i | 0 <= i < |fs| ensures fs[i].inFlight.None? {
          if i < n { assert fs[..n][i] == fs[i]; }
        }
      } else {
        assert InFlightCount(fs[..n]) > 0 || fs[n].inFlight.Some?;
        if InFlightCount(fs[..n]) > 0 {
          var j :| 0 <= j < n && fs[..n][j].inFlight.Some?;
          assert fs[j].inFlight.Some?;
        }
      }
    }
  }

  lemma {:induction false} HandedOffUpdate(fs: seq<FlushTask>, i: nat, f: FlushTask, t: string)
    requires i < |fs| && f.batches == fs[i].batches
    ensures HandedOff(fs[i := f], t) == HandedOff(fs, t)
  {
    var n := |fs| - 1;
    if i < n {
      HandedOffUpdate(fs[..n], i, f, t);
      assert fs[i := f][..n] == fs[..n][i := f];
    } else {
      assert fs[i := f][..n] == fs[..n];
    }
  }

  lemma FiledUnderAppend(log: seq<Filed>, x: Filed, t: string)
    ensures FiledUnder(log + [x], t) == FiledUnder(log, t) + (if x.table == t then [x.event] else [])
  {
  }

  // ---- the invariant holds initially and is kept by every step ----

  /** A freshly constructed client, with no flush and no history, satisfies the
      invariant. */
  lemma InitValid(config: Option<PipebaseConfig>)
    requires NewClient(config).Success?
    ensures Valid(System(NewClient(config).value, [], []))
  {
  }

  /** `track` keeps the invariant: the event is filed under the table it was
      appended to, and every other table's history and buffer are unchanged. */
  lemma TrackPreservesValid(s: System, event: Event, tableName: string)
    requires Valid(s)
    ensures Valid(SysTrack(s, event, tableName))
  {
  }

  /** A console capture keeps the invariant. */
  lemma CapturePreservesValid(s: System, severity: Severity, trace: string, args: seq<string>)
    requires Valid(s)
    ensures Valid(SysCapture(s, severity, trace, args))
  {
    if s.client.capturing {
      var arg := match s.client.config.defaultTable case Some(d) => d case None => "";
      assert SysCapture(s, severity, trace, args) == SysTrack(s, ConsoleLine(severity, trace, args), arg);
      TrackPreservesValid(s, ConsoleLine(severity, trace, args), arg);
    }
  }

  /** Starting a flush keeps the invariant: the whole live buffer moves into the
      new flush, and the new flush awaits nothing yet. */
  lemma FlushPreservesValid(s: System)
    requires Valid(s)
    ensures Valid(SysFlush(s))
  {
  }

  /** A timer tick keeps the invariant. */
  lemma TickPreservesValid(s: System)
    requires Valid(s)
    ensures Valid(SysTick(s))
  {
  }

  /** Beginning an upload keeps the invariant: the counter and the number of
      flushes in flight both go up by one. */
  lemma BeginPreservesValid(s: System, i: nat, t: string)
    requires Valid(s)
    requires i < |s.flushes| && CanBegin(s.flushes[i], t)
    ensures Valid(SysBegin(s, i, t).0)
    ensures SysBegin(s, i, t).1 == Upload(t, s.flushes[i].batches[t])
  {
    var r := SysBegin(s, i, t).0;
    var f := BeginUpload(s.client, s.flushes[i], t).1;
    InFlightCountUpdate(s.flushes, i, f);
    forall t' {
      HandedOffUpdate(s.flushes, i, f, t');
    }
    forall j | 0 <= j < |r.flushes| ensures WellFormed(r.flushes[j]) {
      if j != i { assert r.flushes[j] == s.flushes[j]; }
    }
  }

  /** Ending an upload keeps the invariant; since that flush was counted, the
      counter was at least one before the decrement and so never goes negative. */
  lemma EndPreservesValid(s: System, i: nat, status: int)
    requires Valid(s)
    requires i < |s.flushes| && s.flushes[i].inFlight.Some?
    ensures s.client.uploadJobsInProgress >= 1
    ensures Valid(SysEnd(s, i, status))
    ensures SysEnd(s, i, status).client.uploadJobsInProgress == s.client.uploadJobsInProgress - 1
  {
    var r := SysEnd(s, i, status);
    var f := EndUpload(s.client, s.flushes[i], status).1;
    InFlightCountUpdate(s.flushes, i, f);
    var line := Filed(DefaultTableKey(s.client.config), UploadEndedLine(s.flushes[i].inFlight.value, status));
    forall t'
      ensures FiledUnder(r.filed, t') == HandedOff(r.flushes, t') + Pending(r.client.eventsBuffer, t')
    {
      HandedOffUpdate(s.flushes, i, f, t');
      if s.client.capturing {
        FiledUnderAppend(s.filed, line, t');
      }
    }
    forall j | 0 <= j < |r.flushes| ensures WellFormed(r.flushes[j]) {
      if j != i { assert r.flushes[j] == s.flushes[j]; }
    }
  }

  /** `endAsync`'s stop-and-flush keeps the invariant, leaves nothing buffered,
      and switches off the timer and console capture. */
  lemma EndAsyncPreservesValid(s: System)
    requires Valid(s)
    ensures Valid(SysEndAsync(s))
    ensures SysEndAsync(s).client.eventsBuffer == map[]
    ensures !SysEndAsync(s).client.timerActive && !SysEndAsync(s).client.capturing
  {
  }

  // ---- what the invariant gives ----

  /** The counter is never negative. */
  lemma CounterNonNegative(s: System)
    requires Valid(s)
    ensures s.client.uploadJobsInProgress >= 0
  {
  }

  /** `isIngestionCompleted` holds exactly when nothing is buffered and no flush
      is awaiting an upload. */
  lemma QuiescenceMeaning(s: System)
    requires Valid(s)
    ensures IsIngestionCompleted(s.client) <==>
              |s.client.eventsBuffer| == 0 && forall i :: 0 <= i < |s.flushes| ==> s.flushes[i].inFlight.None?
  {
    NoneInFlight(s.flushes);
  }

  /** Tables a flush has copied but not reached yet are seen neither in the live
      buffer nor in the counter. When an upload ends while its flush still has
      tables waiting, no other upload is in flight and nothing is buffered, the
      client reports ingestion completed, unless the console is captured, in
      which case the line logging the result keeps it from being completed. */
  lemma BetweenUploadsLooksCompleted(s: System, i: nat, status: int)
    requires Valid(s) && i < |s.flushes| && s.flushes[i].inFlight.Some?
    requires Waiting(s.flushes[i]) != {}
    requires forall j :: 0 <= j < |s.flushes| && j != i ==> s.flushes[j].inFlight.None?
    requires |s.client.eventsBuffer| == 0
    ensures var r := SysEnd(s, i, status);
            && Valid(r)
            && Waiting(r.flushes[i]) == Waiting(s.flushes[i]) != {}
            && (!s.client.capturing ==> IsIngestionCompleted(r.client))
            && (s.client.capturing ==> !IsIngestionCompleted(r.client))
  {
    EndPreservesValid(s, i, status);
    var r := SysEnd(s, i, status);
    QuiescenceMeaning(r);
    if s.client.capturing {
      assert DefaultTableKey(s.client.config) in r.client.eventsBuffer;
    } else {
      forall j | 0 <= j < |r.flushes| ensures r.flushes[j].inFlight.None? {
        if j != i { assert r.flushes[j] == s.flushes[j]; }
      }
    }
  }

  /** Once `endAsync` has run, timer ticks and console calls no longer reach the
      client; later `track` calls are buffered but no timer will flush them. */
  lemma EndedIgnoresTimerAndConsole(s: System, severity: Severity, trace: string, args: seq<string>)
    ensures var e := SysEndAsync(s);
            && SysTick(e) == e
            && SysCapture(e, severity, trace, args) == e
  {
  }

  /** Flushing an empty buffer starts no upload and leaves the client as it was. */
  lemma EmptyFlushChangesNothing(s: System)
    requires |s.client.eventsBuffer| == 0
    ensures var r := SysFlush(s);
            && r.client == s.client
            && r.filed == s.filed
            && FlushDone(r.flushes[|r.flushes| - 1])
  {
  }

  // ---- drain ----

  ghost predicate AllDone(fs: seq<FlushTask>) {
    forall i :: 0 <= i < |fs| ==> FlushDone(fs[i])
  }

  /** `b2` is `b1` with lines possibly appended to table `key` only. */
  ghost predicate Grown(b1: Buffer, b2: Buffer, key: string) {
    && b1.Keys <= b2.Keys <= b1.Keys + {key}
    && (forall u :: u in b1 && u != key ==> b2[u] == b1[u])
    && Pending(b1, key) <= Pending(b2, key)
  }

  lemma GrownTransitive(b1: Buffer, b2: Buffer, b3: Buffer, key: string)
    requires Grown(b1, b2, key) && Grown(b2, b3, key)
    ensures Grown(b1, b3, key)
  {
  }

  /** The client fields no upload step changes. */
  predicate SameFlags(a: PipebaseClient, b: PipebaseClient) {
    a.config == b.config && a.capturing == b.capturing && a.timerActive == b.timerActive
  }

  /** What ending an upload does to the rest of the system: the flush stops
      waiting for it, no other flush changes, and only the default table can
      grow (by the result line, when captured). */
  lemma EndEffect(s: System, i: nat, status: int)
    requires Valid(s) && i < |s.flushes| && s.flushes[i].inFlight.Some?
    ensures var r := SysEnd(s, i, status);
            && Valid(r)
            && |r.flushes| == |s.flushes|
            && r.flushes[i].inFlight.None? && Waiting(r.flushes[i]) == Waiting(s.flushes[i])
            && r.flushes[i].batches == s.flushes[i].batches && r.flushes[i].visited == s.flushes[i].visited
            && (forall j :: 0 <= j < |s.flushes| && j != i ==> r.flushes[j] == s.flushes[j])
            && SameFlags(r.client, s.client)
            && (!s.client.capturing ==> r.client.eventsBuffer == s.client.eventsBuffer && r.filed == s.filed)
            && (s.client.capturing ==>
                  && Grown(s.client.eventsBuffer, r.client.eventsBuffer, DefaultTableKey(s.client.config))
                  && DefaultTableKey(s.client.config) in r.client.eventsBuffer)
  {
    EndPreservesValid(s, i, status);
  }

  /** What uploading one waiting table of an idle flush does: the table leaves
      the waiting set, and otherwise the effect is that of `EndEffect`. */
  lemma UploadEffect(s: System, i: nat, t: string, status: int)
    requires Valid(s) && i < |s.flushes| && CanBegin(s.flushes[i], t)
    ensures var b := SysBegin(s, i, t).0;
            var r := SysEnd(b, i, status);
            && Valid(r)
            && |r.flushes| == |s.flushes|
            && r.flushes[i].inFlight.None? && Waiting(r.flushes[i]) == Waiting(s.flushes[i]) - {t}
            && r.flushes[i].batches == s.flushes[i].batches && r.flushes[i].visited == s.flushes[i].visited + {t}
            && SysBegin(s, i, t).1 == Upload(t, s.flushes[i].batches[t])
            && (forall j :: 0 <= j < |s.flushes| && j != i ==> r.flushes[j] == s.flushes[j])
            && SameFlags(r.client, s.client)
            && (!s.client.capturing ==> r.client.eventsBuffer == s.client.eventsBuffer && r.filed == s.filed)
            && (s.client.capturing ==>
                  && Grown(s.client.eventsBuffer, r.client.eventsBuffer, DefaultTableKey(s.client.config))
                  && DefaultTableKey(s.client.config) in r.client.eventsBuffer)
  {
    BeginPreservesValid(s, i, t);
    var b := SysBegin(s, i, t).0;
    EndEffect(b, i, status);
  }

  /** `us` hands each table of `ts` to `send` exactly once, with the batch `b`
      holds for it, and `sts` are `send`'s answers in the same order. */
  predicate HandedOver(us: seq<Upload>, sts: seq<int>, b: Buffer, ts: set<string>,
                       send: (string, seq<Event>) -> int)
  {
    && |us| == |ts| && Tables(us) == ts && DistinctTables(us) && FromBuffer(us, b)
    && |sts| == |us|
    && forall k :: 0 <= k < |us| ==> sts[k] == send(us[k].table, us[k].events)
  }

  /** Handing over one more table of `b` keeps `HandedOver`. */
  lemma HandedOverGrows(us: seq<Upload>, sts: seq<int>, b: Buffer, ts: set<string>, t: string,
                        send: (string, seq<Event>) -> int)
    requires HandedOver(us, sts, b, ts, send) && t in b && t !in ts
    ensures HandedOver(us + [Upload(t, b[t])], sts + [send(t, b[t])], b, ts + {t}, send)
  {
    UploadsGrow(us, ts, b, t);
  }

  /** Where the loop of flush `i` stands after handing over `uploads`,
      starting from `s` with no upload in flight: the tables it has reached
      since are exactly those handed over, nothing else in the system has
      changed but the default table's captured lines, and the invariant holds. */
  ghost predicate Progress(s: System, i: nat, r: System, uploads: seq<Upload>, statuses: seq<int>,
                           send: (string, seq<Event>) -> int)
  {
    && i < |s.flushes| == |r.flushes|
    && Valid(r)
    && r.flushes[i].inFlight.None? && r.flushes[i].batches == s.flushes[i].batches
    && s.flushes[i].visited <= r.flushes[i].visited
    && HandedOver(uploads, statuses, s.flushes[i].batches, r.flushes[i].visited - s.flushes[i].visited, send)
    && (forall j :: 0 <= j < |s.flushes| && j != i ==> r.flushes[j] == s.flushes[j])
    && SameFlags(r.client, s.client)
    && (!s.client.capturing ==> r.client.eventsBuffer == s.client.eventsBuffer && r.filed == s.filed)
    && (s.client.capturing ==> Grown(s.client.eventsBuffer, r.client.eventsBuffer, DefaultTableKey(s.client.config)))
    && (s.client.capturing && |uploads| > 0 ==> DefaultTableKey(s.client.config) in r.client.eventsBuffer)
  }

  /** One more upload of a waiting table keeps `Progress` and shrinks the
      waiting set. */
  lemma ProgressStep(s: System, i: nat, r: System, uploads: seq<Upload>, statuses: seq<int>,
                     send: (string, seq<Event>) -> int, t: string)
    requires Progress(s, i, r, uploads, statuses, send) && t in Waiting(r.flushes[i])
    ensures var b := SysBegin(r, i, t);
            var n := SysEnd(b.0, i, send(t, b.1.events));
            && Progress(s, i, n, uploads + [b.1], statuses + [send(t, b.1.events)], send)
            && |Waiting(n.flushes[i])| < |Waiting(r.flushes[i])|
  {
    var key := DefaultTableKey(s.client.config);
    var b := SysBegin(r, i, t);
    var status := send(t, b.1.events);
    UploadEffect(r, i, t, status);
    HandedOverGrows(uploads, statuses, s.flushes[i].batches, r.flushes[i].visited - s.flushes[i].visited, t, send);
    assert r.flushes[i].visited + {t} - s.flushes[i].visited
           == (r.flushes[i].visited - s.flushes[i].visited) + {t};
    if s.client.capturing {
      GrownTransitive(s.client.eventsBuffer, r.client.eventsBuffer, SysEnd(b.0, i, status).client.eventsBuffer, key);
    }
  }

  /** The loop of flush `i` from a point where it awaits no upload: each table
      it has not reached is handed to `send` in turn, exactly once and with the
      batch the flush copied for it. */
  method UploadWaiting(s: System, i: nat, send: (string, seq<Event>) -> int)
    returns (r: System, uploads: seq<Upload>, statuses: seq<int>)
    requires Valid(s) && i < |s.flushes| && s.flushes[i].inFlight.None?
    ensures |r.flushes| == |s.flushes|
    ensures Valid(r) && FlushDone(r.flushes[i])
    ensures r.flushes[i].batches == s.flushes[i].batches
    ensures forall j :: 0 <= j < |s.flushes| && j != i ==> r.flushes[j] == s.flushes[j]
    ensures HandedOver(uploads, statuses, s.flushes[i].batches, Waiting(s.flushes[i]), send)
    ensures SameFlags(r.client, s.client)
    ensures !s.client.capturing ==> r.client.eventsBuffer == s.client.eventsBuffer && r.filed == s.filed
    ensures s.client.capturing ==>
              Grown(s.client.eventsBuffer, r.client.eventsBuffer, DefaultTableKey(s.client.config))
    ensures s.client.capturing && Waiting(s.flushes[i]) != {} ==>
              DefaultTableKey(s.client.config) in r.client.eventsBuffer
  {
    r, uploads, statuses := s, [], [];
    while Waiting(r.flushes[i]) != {}
      invariant Progress(s, i, r, uploads, statuses, send)
      decreases |Waiting(r.flushes[i])|
    {
      var t :| t in Waiting(r.flushes[i]);
      ProgressStep(s, i, r, uploads, statuses, send, t);
      var b := SysBegin(r, i, t);
      var status := send(t, b.1.events);
      r := SysEnd(b.0, i, status);
      uploads, statuses := uploads + [b.1], statuses + [status];
    }
    assert r.flushes[i].visited - s.flushes[i].visited == Waiting(s.flushes[i]);
  }

  /** Let flush `i` run to its end with `send` answering its uploads and no
      other step interleaved: the upload it awaits settles, then each table it
      has not reached is handed to `send` in turn, exactly once and with the
      batch the flush copied for it; `uploads` are those hand-offs and
      `statuses` what `send` answered. Without capture the live buffer and the
      history are untouched; with capture only the default table grows, by at
      least one result line whenever the flush had work left. */
  method RunFlush(s: System, i: nat, send: (string, seq<Event>) -> int)
    returns (r: System, uploads: seq<Upload>, statuses: seq<int>)
    requires Valid(s) && i < |s.flushes|
    ensures |r.flushes| == |s.flushes|
    ensures Valid(r) && FlushDone(r.flushes[i])
    ensures r.flushes[i].batches == s.flushes[i].batches
    ensures forall j :: 0 <= j < |s.flushes| && j != i ==> r.flushes[j] == s.flushes[j]
    ensures HandedOver(uploads, statuses, s.flushes[i].batches, Waiting(s.flushes[i]), send)
    ensures SameFlags(r.client, s.client)
    ensures FlushDone(s.flushes[i]) ==> r == s
    ensures !s.client.capturing ==> r.client.eventsBuffer == s.client.eventsBuffer && r.filed == s.filed
    ensures s.client.capturing ==>
              Grown(s.client.eventsBuffer, r.client.eventsBuffer, DefaultTableKey(s.client.config))
    ensures s.client.capturing && !FlushDone(s.flushes[i]) ==>
              DefaultTableKey(s.client.config) in r.client.eventsBuffer
  {
    var m := s;
    if FlushDone(s.flushes[i]) {
      r, uploads, statuses := s, [], [];
      return;
    }
    if s.flushes[i].inFlight.Some? {
      var t := s.flushes[i].inFlight.value;
      var status := send(t, s.flushes[i].batches[t]);
      EndEffect(s, i, status);
      m := SysEnd(s, i, status);
    }
    r, uploads, statuses := UploadWaiting(m, i, send);
    if s.client.capturing {
      GrownTransitive(s.client.eventsBuffer, m.client.eventsBuffer, r.client.eventsBuffer,
                      DefaultTableKey(s.client.config));
    }
  }

  /** Run flushes `0`, `1`, ... in turn to their ends: every flush ends, each
      table still waiting in flush `j` is handed over as `uploads[j]`, and only
      the default table's captured lines change, growing whenever some flush
      had work left. */
  method RunAll(s: System, send: (string, seq<Event>) -> int)
    returns (r: System, uploads: seq<seq<Upload>>, statuses: seq<seq<int>>)
    requires Valid(s)
    ensures |uploads| == |statuses| == |s.flushes|
    ensures forall j :: 0 <= j < |s.flushes| ==>
              HandedOver(uploads[j], statuses[j], s.flushes[j].batches, Waiting(s.flushes[j]), send)
    ensures Valid(r)
    ensures AllDone(r.flushes) && |r.flushes| == |s.flushes|
    ensures SameFlags(r.client, s.client)
    ensures AllDone(s.flushes) ==> r == s
    ensures !s.client.capturing ==> r.client.eventsBuffer == s.client.eventsBuffer && r.filed == s.filed
    ensures s.client.capturing && !AllDone(s.flushes) ==>
              DefaultTableKey(s.client.config) in r.client.eventsBuffer
  {
    var key := DefaultTableKey(s.client.config);
    r, uploads, statuses := s, [], [];
    var i := 0;
    var worked, w := false, 0;
    while i < |r.flushes|
      invariant 0 <= i <= |r.flushes| == |s.flushes|
      invariant |uploads| == |statuses| == i
      invariant forall j :: 0 <= j < i ==>
                  HandedOver(uploads[j], statuses[j], s.flushes[j].batches, Waiting(s.flushes[j]), send)
      invariant Valid(r)
      invariant forall j :: 0 <= j < i ==> FlushDone(r.flushes[j])
      invariant forall j :: i <= j < |s.flushes| ==> r.flushes[j] == s.flushes[j]
      invariant SameFlags(r.client, s.client)
      invariant !s.client.capturing ==> r.client.eventsBuffer == s.client.eventsBuffer && r.filed == s.filed
      invariant s.client.capturing ==> Grown(s.client.eventsBuffer, r.client.eventsBuffer, key)
      invariant !worked ==> r == s && forall j :: 0 <= j < i ==> FlushDone(s.flushes[j])
      invariant worked ==> w < i && !FlushDone(s.flushes[w])
      invariant s.client.capturing && worked ==> key in r.client.eventsBuffer
    {
      var before := r;
      var us, sts;
      r, us, sts := RunFlush(r, i, send);
      uploads, statuses := uploads + [us], statuses + [sts];
      if s.client.capturing {
        GrownTransitive(s.client.eventsBuffer, before.client.eventsBuffer, r.client.eventsBuffer, key);
      }
      if !FlushDone(s.flushes[i]) {
        worked, w := true, i;
      }
      i := i + 1;
    }
  }

  /** Let every flush run to its end, with `send` answering each upload and no
      other step interleaved: every table still waiting in some flush is handed
      to `send` exactly once with its copied batch (`uploads[j]` for flush `j`,
      answered by `statuses[j]`) and the counter returns to zero. Without
      capture the client is then quiescent exactly when its live buffer is
      empty, which is what `endAsync`'s polling waits for; with capture it is
      quiescent only if there was nothing to settle at all, since each settled
      upload logs a captured line. */
  method Settle(s: System, send: (string, seq<Event>) -> int)
    returns (r: System, uploads: seq<seq<Upload>>, statuses: seq<seq<int>>)
    requires Valid(s)
    ensures |uploads| == |statuses| == |s.flushes|
    ensures forall j :: 0 <= j < |s.flushes| ==>
              HandedOver(uploads[j], statuses[j], s.flushes[j].batches, Waiting(s.flushes[j]), send)
    ensures Valid(r)
    ensures AllDone(r.flushes) && |r.flushes| == |s.flushes|
    ensures SameFlags(r.client, s.client)
    ensures r.client.uploadJobsInProgress == 0
    ensures !s.client.capturing ==> r.client.eventsBuffer == s.client.eventsBuffer && r.filed == s.filed
    ensures !s.client.capturing ==> (IsIngestionCompleted(r.client) <==> |s.client.eventsBuffer| == 0)
    ensures s.client.capturing ==>
              (IsIngestionCompleted(r.client) <==> |s.client.eventsBuffer| == 0 && AllDone(s.flushes))
  {
    r, uploads, statuses := RunAll(s, send);
    NoneInFlight(r.flushes);
    if AllDone(s.flushes) {
      NoneInFlight(s.flushes);
    }
  }
}

=== FILE: wrappers.dfy ===
/** Failure-carrying values shared by the configuration and client modules. */
module Wrappers {

  /** An optional value: a JavaScript property that may be `undefined`. */
  datatype Option<+T> = None | Some(value: T)

  /** The value of a computation that can throw an error instead. */
  datatype Result<+R, +E> = Success(value: R) | Failure(error: E)

  /** The outcome of a check that either passes or throws. */
  datatype Outcome<+E> = Pass | Fail(error: E)
}
